=== FILE: README.md ===
# node-zopfli binding: argument validation and dispatch

A Dafny model of the native Node binding of node-zopfli (`src/zopfli.cc`):
the function exported as `deflate(buffer, format, options, callback)` and
its helper `parseOptions`. The compression itself (Zopfli's
`ZopfliCompress`) is outside the model and appears only as a function
parameter `compress`.

- `wrappers.dfy` — `Option` and `Result`.
- `js_values.dfy` — the JavaScript values the binding can tell apart
  (`undefined`, `null`, booleans, Int32 numbers, strings, functions, plain
  objects, buffers, everything else), V8's `IsObject` (which holds of
  functions and buffers too), property lookup, and `TypeError`.
- `options.dfy` — `parseOptions`. It is modelled as one guarded block
  (`ParseField`) folded over the six options in declaration order
  (`FieldOrder`). The fold is proved equal to a declarative description:
  `Rejected`, `FirstRejected`, `WellTyped` and `Stored`/`Applied`.
- `formats.dfy` — resolution of the format string to GZIP, ZLIB or DEFLATE.
- `binding.dfy` — `Deflate`. It checks the callback first, then the buffer,
  the format and the options, with the first error winning. The result is an
  `Outcome`: `Thrown`, `Faulted`, `CallbackError` or `CallbackSuccess`.
  `Faulted` marks the undefined behaviour reached when the callback check
  passes (no arguments, or a function last) and the first argument is
  missing, `undefined` or `null`. In that
  case the binding asks for its buffer
  length and data through an empty handle before any callback (lines 118-120).
  `Invocations` lists the callback's argument lists and `EngineCalls` the
  engine calls.
- `binding_properties.dfy` — the order of the checks, when a call succeeds,
  what the engine receives, and worked calls.

The initial contents of the `ZopfliOptions` record are the parameter `init`.
The binding declares that record without initialising it, so the model only
states which fields keep their initial values.

A caller might expect the format and the options to be optional, with
DEFLATE and the engine's defaults used when they are missing. The code does
not work that way:

- A missing or non-string second argument is the error "Second argument must
  be a string". This includes `deflate(buf, cb)`, where the callback sits in
  the format's position.
- A missing or non-object third argument is "Third argument must be an
  object".
- `deflate(buf, "gzip", cb)` succeeds when the callback carries none of the
  six option names, because a function is an object and the callback is read
  as the options object. A callback carrying, say, `verbose: 1` gets "Wrong
  type for option 'verbose'".

## Model

| member | source | states |
|---|---|---|
| Options.Classify | src/zopfli.cc:21-98 | an option's value is skipped exactly when it is undefined or null; it is stored exactly when a boolean option gets a boolean (stored as 1/0) or an integer option gets an Int32 (stored unchanged); every other value is rejected, with no coercion |
| Options.Set | src/zopfli.cc:62-70 | assigning one option field sets that field and leaves the other five unchanged |
| Options.ParseField | src/zopfli.cc:31-40 | while the error slot is empty, an accepted value is stored in its own field only and a wrongly-typed one sets that option's error with the record unchanged; once the error slot is set, the block changes nothing |
| Options.ParseFieldsKeepsError | src/zopfli.cc:32-99 | after an error is set, every later block leaves the record and the error as they are |
| Options.ParseFieldsAccepts | src/zopfli.cc:13-101 | when no inspected option is rejected, the error stays null and each inspected field holds its stored value while the others keep their values |
| Options.ParseFieldsRejectsAt | src/zopfli.cc:13-101 | when option k is the first rejected one, the error names it, options before k are applied, and option k and later ones are untouched |
| Options.ParseOptionsNullIffWellTyped | src/zopfli.cc:18-100 | `parseOptions` returns null exactly when no recognised option is present with a wrong type |
| Options.ParseOptionsStoresEveryField | src/zopfli.cc:21-99 | on success every field holds its option's value, or its initial value when the option is undefined or null |
| Options.ParseOptionsFirstErrorWins | src/zopfli.cc:21-100 | the error is "Wrong type for option '<name>'" for the first wrongly-typed option in declaration order; options before it are applied, and it and every later one keep their initial values |
| Options.ParseOptionsErrorIsFirst | src/zopfli.cc:27-100 | any error that is returned names the first wrongly-typed option |
| Options.AbsentOptionUnchanged | src/zopfli.cc:21-29 | an option that is undefined or null leaves its field unchanged and is never the option reported |
| Options.WrongTypeNamesOneOption | src/zopfli.cc:27-97 | two wrong-type errors are equal exactly when they are for the same option |
| Options.LaterOptionsNotInspected | src/zopfli.cc:32-99 | after the first wrongly-typed option, changing the values of later options does not change the result |
| Options.UnrecognizedKeysIgnored | src/zopfli.cc:13-101 | adding a key other than the six recognised ones does not change the result |
| Formats.ResolveFormat | src/zopfli.cc:122-138 | a non-string is "Second argument must be a string"; a string that is not one of the three tokens is "Invalid format"; a resolved format's token is exactly the given string |
| Formats.ResolveTokenRoundTrip | src/zopfli.cc:124-131 | each format's token resolves to that format |
| Formats.ResolvesIffToken | src/zopfli.cc:124-134 | a value resolves exactly when it is a string equal to one of "gzip", "zlib" and "deflate", with case significant |
| Binding.ResolveOptions | src/zopfli.cc:140-150 | a third argument that is not an object is "Third argument must be an object"; for an object, the options are accepted exactly when they are well typed, and then they are the object's options applied over the initial record; a rejected object's error is the wrong-type error of its first wrongly-typed option |
| Binding.EngineCalls | src/zopfli.cc:150-158 | the engine is called at most once, and it is called exactly when the call is accepted (callback last, buffer first, a format token second, an object with well-typed options third); that call is on the buffer's bytes, with the format its token names and the options applied over the initial record |
| Binding.Deflate | src/zopfli.cc:103-167 | the call throws the callback error exactly when there is an argument and the last is not a function; it faults exactly when the callback check passes (no arguments, or a function last) and the first argument is missing, undefined or null; in every other case the callback is invoked exactly once, with two arguments `(null, output)` exactly when the engine is called and with the error alone otherwise; it succeeds exactly when the engine is called, and the output is that call's result |
| BindingProperties.NoCallbackThrows | src/zopfli.cc:107-111 | a last argument that is not a function gives "Last argument must be a callback function", with no callback invocation and no engine call |
| BindingProperties.BufferErrorWins | src/zopfli.cc:114-120 | a non-buffer first argument reports "First argument must be a buffer", whatever the format and options are, unless it is undefined or null, where the buffer reads fault before the callback |
| BindingProperties.FormatErrorBeforeOptions | src/zopfli.cc:123-138 | with a buffer, a bad format argument reports the format error whatever the options are |
| BindingProperties.OptionsMustBeObject | src/zopfli.cc:141-147 | with a buffer and a valid format, a third argument that is not an object reports "Third argument must be an object" |
| BindingProperties.OptionErrorIsFirstRejected | src/zopfli.cc:141-144 | with a buffer and a valid format, the callback gets the wrong-type error of the first wrongly-typed option |
| BindingProperties.SuccessIff | src/zopfli.cc:113-165 | the call succeeds exactly when it is accepted: a callback last, a buffer first, one of the three format tokens second and an object whose recognised options are well typed third |
| BindingProperties.SuccessCallsEngine | src/zopfli.cc:153-164 | on success the engine is called once, on the buffer's bytes, with the named format and the options applied over the initial record; the callback gets `(null, output)` |
| BindingProperties.ErrorsIgnoreEngine | src/zopfli.cc:150-152 | an error or throw outcome is the same whatever the engine is, because the engine is not called |
| BindingProperties.NoArgumentsFault | src/zopfli.cc:108-120 | `deflate()` passes the callback check, then faults on the missing first argument, and invokes no callback |
| BindingProperties.FormatIsNotOptional | src/zopfli.cc:124-136 | `deflate(buf, cb)` reports "Second argument must be a string" |
| BindingProperties.MissingCallbackThrows | src/zopfli.cc:108-110 | `deflate(buf, "gzip", {})` throws the callback error |
| BindingProperties.CallbackDoublesAsOptions | src/zopfli.cc:142-144 | `deflate(buf, "gzip", cb)`, where cb carries none of the six options, succeeds with the initial options and GZIP |
| BindingProperties.UnknownFormat | src/zopfli.cc:124-134 | "bzip2" and "GZIP" are both "Invalid format" |
| BindingProperties.StringIterationCount | src/zopfli.cc:47-54 | `{numiterations: "fast"}` reports "Wrong type for option 'numiterations'" |
| BindingProperties.NumberForBooleanRejected | src/zopfli.cc:21-28 | a number given for `verbose` reports "Wrong type for option 'verbose'"; it is not coerced to a boolean |

## Left out

- V8 and Node mechanics: `HandleScope`, handle lifetimes, `Buffer::New` memory ownership, `Context::GetCurrent()`, and the JavaScript `this` of the callback. These are host-runtime calls whose code is not part of this model.
- The compression engine `ZopfliCompress`, from the zopfli library, is not part of this model. It is the parameter `compress`, and nothing is claimed about its output: not determinism, not compression ratio, not framing.
- Module registration (`init`, `NODE_MODULE`) and the unused `zopflipng.h` include. They contain no logic.
- Default option values: the binding never initialises its `ZopfliOptions`, so its initial contents are the parameter `init`.
- Binding.Deflate: `Faulted` stands for undefined behaviour and nothing is claimed about it. It covers zero arguments and a first argument that is `undefined` or `null` when a callback is present. There, `ToObject` yields no object and line 119 dereferences the empty handle before any callback runs.
- BindingProperties.BufferErrorWins: for a first argument that is undefined or null, it promises only `Faulted`, not the buffer error, for the reason above.
- Binding.Validate: for a first argument that is some other non-buffer value, the binding still calls `Buffer::Length` and `Buffer::Data` on the object `ToObject` makes of it (lines 119-120). What those reads return is not modelled; only the reported error is. The bytes are taken only from a real buffer.
- Formats.ResolveFormat: the string is compared as given. The conversion through `String::AsciiValue` is not modelled, so how non-ASCII characters would be narrowed is left out.
- Formats.ResolvesIffToken: rests on the same abstraction. "A string equal to one of the three tokens" is exact only for ASCII strings; for others the narrowed copy that line 125 compares is not modelled.
- JsValues.Properties: a buffer passed as the options object is modelled as having no properties of its own. Property reads do not follow the prototype chain and do not run getters. A getter that throws is not modelled.
- Numbers: V8's IsInt32 split is taken as given (`Int32` versus `Other`). Floating point is not modelled.
- The callback's own behaviour, and any exception it throws, are outside the model.

=== FILE: binding.dfy ===
/**
  `Deflate(args)`, the function the module exports as `deflate`: checks the
  callback, the buffer, the format and the options in that order, and either
  throws (no usable callback) or calls the callback exactly once, with the
  first error or with `(null, output)`. Between the buffer check and the
  format check the binding reads the first argument's buffer length and data;
  when that argument is missing, `undefined` or `null` there is no object to
  read them from, and the call goes no further.
 */
module Binding {
  import opened Wrappers
  import opened JsValues
  import opened Options
  import Formats

  /** `ZopfliCompress`, seen only through its inputs and its output. */
  type Engine = (ZopfliOptions, Formats.Format, seq<uint8>) -> seq<uint8>

  const CallbackMessage := "Last argument must be a callback function"
  const BufferMessage := "First argument must be a buffer"
  const OptionsMessage := "Third argument must be an object"

  /**
    What one call of `deflate` does, as seen by its caller. `Faulted` marks
    the dereference of an empty handle: undefined behaviour, about which the
    model claims nothing beyond that the checks and the engine are not reached.
   */
  datatype Outcome =
    | Thrown(error: TypeError)
    | Faulted
    | CallbackError(error: TypeError)
    | CallbackSuccess(output: seq<uint8>)

  /** A value passed to the callback. */
  datatype CallbackArg = ErrorArg(error: TypeError) | NullArg | BufferArg(bytes: seq<uint8>)

  /** The argument lists of the callback's invocations, in order. */
  function Invocations(o: Outcome): seq<seq<CallbackArg>> {
    match o
    case Thrown(_) => []
    case Faulted => []
    case CallbackError(e) => [[ErrorArg(e)]]
    case CallbackSuccess(out) => [[NullArg, BufferArg(out)]]
  }

  /** The calls made to the engine, in order. */
  datatype EngineCall = EngineCall(options: ZopfliOptions, format: Formats.Format, input: seq<uint8>)

  /** `args[i]`: V8 reads a missing argument as `undefined`. */
  function Arg(args: seq<JsValue>, i: nat): JsValue {
    if i < |args| then args[i] else Undefined
  }

  /**
    The third argument must be an object (a function is one) and its options
    must parse: the error `parseOptions` leaves in its slot decides the outcome.
   */
  function ResolveOptions(v: JsValue, init: ZopfliOptions): (r: Result<ZopfliOptions, TypeError>)
    ensures !IsObject(v) ==> r == Failure(TypeError(OptionsMessage))
    ensures IsObject(v) ==> (r.Success? <==> WellTyped(Properties(v)))
    ensures r.Success? ==> r.value == Applied(Properties(v), init)
    ensures IsObject(v) && r.Failure? ==> exists f :: FirstRejected(Properties(v), f) && r.error == WrongType(f)
  {
    if IsObject(v) then
      var st := ParseOptions(Properties(v), init);
      ParseOptionsNullIffWellTyped(Properties(v), init);
      if st.error.None? then
        ParseOptionsStoresEveryField(Properties(v), init);
        Success(st.options)
      else
        ParseOptionsErrorIsFirst(Properties(v), init);
        Failure(st.error.value)
    else
      Failure(TypeError(OptionsMessage))
  }

  /**
    The three argument checks, first error wins: each later check runs only
    while the error slot is still empty. On success, the engine call to make.
   */
  function Validate(args: seq<JsValue>, init: ZopfliOptions): Result<EngineCall, TypeError> {
    if !Arg(args, 0).Buffer? then Failure(TypeError(BufferMessage))
    else
      match Formats.ResolveFormat(Arg(args, 1))
      case Failure(e) => Failure(e)
      case Success(format) =>
        match ResolveOptions(Arg(args, 2), init)
        case Failure(e) => Failure(e)
        case Success(options) => Success(EngineCall(options, format, Arg(args, 0).bytes))
  }

  /** There is at least one argument and the last one is not a function. */
  predicate LacksCallback(args: seq<JsValue>) {
    |args| >= 1 && !args[|args| - 1].Function?
  }

  /** The first argument is missing, `undefined` or `null`: it has no object to read a buffer from. */
  predicate NoFirstObject(args: seq<JsValue>) {
    Arg(args, 0).Undefined? || Arg(args, 0).Null?
  }

  /**
    An accepted call: a callback last, a buffer first, one of the three
    format tokens second and an object with well-typed options third.
   */
  predicate Accepted(args: seq<JsValue>) {
    && |args| >= 1
    && args[|args| - 1].Function?
    && args[0].Buffer?
    && (exists f :: Arg(args, 1) == Str(Formats.Token(f)))
    && IsObject(Arg(args, 2))
    && WellTyped(Properties(Arg(args, 2)))
  }

  /**
    The engine calls the binding makes: one for an accepted call, on the
    buffer's bytes, with the format its token names and the options applied
    over the initial record; none otherwise.
   */
  function EngineCalls(args: seq<JsValue>, init: ZopfliOptions): (calls: seq<EngineCall>)
    ensures |calls| <= 1
    ensures calls != [] <==> Accepted(args)
    ensures calls != [] ==>
              && calls[0].input == args[0].bytes
              && Arg(args, 1) == Str(Formats.Token(calls[0].format))
              && calls[0].options == Applied(Properties(Arg(args, 2)), init)
  {
    Formats.ResolvesIffToken(Arg(args, 1));
    if LacksCallback(args) || NoFirstObject(args) then []
    else
      match Validate(args, init)
      case Failure(_) => []
      case Success(call) => [call]
  }

  /**
    `Deflate(args)` with the uninitialised ZopfliOptions as `init` and
    ZopfliCompress as `compress`: it throws exactly when the last argument is
    not a function, faults when the first argument has no object behind it,
    and otherwise invokes the callback exactly once, with `(null, output)`
    exactly when the engine is called and with the error alone otherwise.
   */
  function Deflate(args: seq<JsValue>, init: ZopfliOptions, compress: Engine): (r: Outcome)
    ensures r.Thrown? <==> LacksCallback(args)
    ensures r.Thrown? ==> r.error == TypeError(CallbackMessage)
    ensures r.Faulted? <==> !LacksCallback(args) && NoFirstObject(args)
    ensures |Invocations(r)| == (if LacksCallback(args) || NoFirstObject(args) then 0 else 1)
    ensures |Invocations(r)| == 1 ==> (|Invocations(r)[0]| == 2 <==> EngineCalls(args, init) != [])
    ensures r.CallbackSuccess? <==> EngineCalls(args, init) != []
    ensures r.CallbackSuccess? ==>
              var call := EngineCalls(args, init)[0];
              r.output == compress(call.options, call.format, call.input)
  {
    if LacksCallback(args) then Thrown(TypeError(CallbackMessage))
    else if NoFirstObject(args) then Faulted
    else
      match Validate(args, init)
      case Failure(e) => CallbackError(e)
      case Success(call) => CallbackSuccess(compress(call.options, call.format, call.input))
  }
}

=== FILE: binding_properties.dfy ===
/**
  What a caller of `deflate` can rely on: the order in which the arguments
  are checked, which call succeeds, what the engine is given, and a few
  calls worked through.
 */
module BindingProperties {
  import opened Wrappers
  import opened JsValues
  import opened Options
  import opened Binding
  import Formats

  /** Without a callback the call throws before any argument is checked, and nothing else happens. */
  lemma NoCallbackThrows(args: seq<JsValue>, init: ZopfliOptions, compress: Engine)
    requires LacksCallback(args)
    ensures Deflate(args, init, compress) == Thrown(TypeError(CallbackMessage))
    ensures Invocations(Deflate(args, init, compress)) == []
    ensures EngineCalls(args, init) == []
  {
  }

  /**
    A first argument that is not a buffer is reported whatever the format and
    options are, unless it is `undefined` or `null`: then reading its buffer
    length dereferences an empty handle before the callback is reached.
   */
  lemma BufferErrorWins(args: seq<JsValue>, init: ZopfliOptions, compress: Engine)
    requires |args| >= 1 && !LacksCallback(args)
    requires !args[0].Buffer?
    ensures (args[0].Undefined? || args[0].Null?) ==> Deflate(args, init, compress) == Faulted
    ensures !(args[0].Undefined? || args[0].Null?) ==>
              Deflate(args, init, compress) == CallbackError(TypeError(BufferMessage))
  {
  }

  /** With a buffer, a bad format is reported whatever the options are. */
  lemma FormatErrorBeforeOptions(args: seq<JsValue>, init: ZopfliOptions, compress: Engine)
    requires |args| >= 1 && !LacksCallback(args) && args[0].Buffer?
    requires Formats.ResolveFormat(Arg(args, 1)).Failure?
    ensures Deflate(args, init, compress) == CallbackError(Formats.ResolveFormat(Arg(args, 1)).error)
    ensures Deflate(args, init, compress).error.message
            in {Formats.NotAStringMessage, Formats.InvalidFormatMessage}
  {
  }

  /** With a buffer and a valid format, a third argument that is not an object is reported. */
  lemma OptionsMustBeObject(args: seq<JsValue>, init: ZopfliOptions, compress: Engine, f: Formats.Format)
    requires |args| >= 1 && !LacksCallback(args) && args[0].Buffer?
    requires Arg(args, 1) == JsValues.Str(Formats.Token(f))
    requires !IsObject(Arg(args, 2))
    ensures Deflate(args, init, compress) == CallbackError(TypeError(OptionsMessage))
  {
  }

  /** With a buffer and a valid format, the first wrongly-typed option is reported. */
  lemma OptionErrorIsFirstRejected(args: seq<JsValue>, init: ZopfliOptions, compress: Engine,
                                   f: Formats.Format, bad: Field)
    requires |args| >= 1 && !LacksCallback(args) && args[0].Buffer?
    requires Arg(args, 1) == JsValues.Str(Formats.Token(f))
    requires IsObject(Arg(args, 2)) && FirstRejected(Properties(Arg(args, 2)), bad)
    ensures Deflate(args, init, compress) == CallbackError(WrongType(bad))
  {
    Formats.ResolveTokenRoundTrip(f);
    ParseOptionsFirstErrorWins(Properties(Arg(args, 2)), init, bad);
  }

  /**
    The call succeeds exactly when it is accepted: there is a callback, the
    first argument is a buffer, the second is one of the three tokens and the
    third is an object whose recognised options are all well typed.
   */
  lemma SuccessIff(args: seq<JsValue>, init: ZopfliOptions, compress: Engine)
    ensures Deflate(args, init, compress).CallbackSuccess? <==> Accepted(args)
  {
    Formats.ResolvesIffToken(Arg(args, 1));
  }

  /**
    On success the engine is called once, on the buffer's bytes, with the
    format the token names and the options applied over the initial record;
    the callback receives `(null, output)`.
   */
  lemma SuccessCallsEngine(args: seq<JsValue>, init: ZopfliOptions, compress: Engine, f: Formats.Format)
    requires |args| >= 1 && !LacksCallback(args) && args[0].Buffer?
    requires Arg(args, 1) == JsValues.Str(Formats.Token(f))
    requires IsObject(Arg(args, 2)) && WellTyped(Properties(Arg(args, 2)))
    ensures EngineCalls(args, init) == [EngineCall(Applied(Properties(Arg(args, 2)), init), f, args[0].bytes)]
    ensures Deflate(args, init, compress)
            == CallbackSuccess(compress(Applied(Properties(Arg(args, 2)), init), f, args[0].bytes))
    ensures Invocations(Deflate(args, init, compress))
            == [[NullArg, BufferArg(compress(Applied(Properties(Arg(args, 2)), init), f, args[0].bytes))]]
  {
    Formats.ResolveTokenRoundTrip(f);
    ParseOptionsStoresEveryField(Properties(Arg(args, 2)), init);
  }

  /** An error outcome does not depend on the engine: it is never called. */
  lemma ErrorsIgnoreEngine(args: seq<JsValue>, init: ZopfliOptions, c1: Engine, c2: Engine)
    requires !Deflate(args, init, c1).CallbackSuccess?
    ensures Deflate(args, init, c1) == Deflate(args, init, c2)
  {
  }

  // ---------------------------------------------------------------------------
  // Calls worked through.

  /**
    `deflate()`: with no arguments there is no callback check, and the missing
    first argument has no buffer to read, so the callback is never reached.
   */
  lemma NoArgumentsFault(init: ZopfliOptions, compress: Engine)
    ensures Deflate([], init, compress) == Faulted
    ensures Invocations(Deflate([], init, compress)) == []
  {
  }

  /** `deflate(buf, cb)`: the callback sits where the format should be. */
  lemma FormatIsNotOptional(b: seq<uint8>, cb: map<string, JsValue>, init: ZopfliOptions, compress: Engine)
    ensures Deflate([Buffer(b), Function(cb)], init, compress)
            == CallbackError(TypeError(Formats.NotAStringMessage))
  {
  }

  /** `deflate(buf, "gzip", {})`: the last argument is not a function, so the call throws. */
  lemma MissingCallbackThrows(b: seq<uint8>, init: ZopfliOptions, compress: Engine)
    ensures Deflate([Buffer(b), JsValues.Str("gzip"), OtherObject(map[])], init, compress)
            == Thrown(TypeError(CallbackMessage))
  {
  }

  /**
    `deflate(buf, "gzip", cb)`: the callback is also the options object, and
    since it carries none of the six options the initial record goes to the engine.
   */
  lemma CallbackDoublesAsOptions(b: seq<uint8>, cb: map<string, JsValue>, init: ZopfliOptions, compress: Engine)
    requires forall f :: Key(f) !in cb
    ensures Deflate([Buffer(b), JsValues.Str("gzip"), Function(cb)], init, compress)
            == CallbackSuccess(compress(init, Formats.Gzip, b))
  {
    var args := [Buffer(b), JsValues.Str("gzip"), Function(cb)];
    assert WellTyped(cb);
    SuccessCallsEngine(args, init, compress, Formats.Gzip);
    Extensionality(Applied(cb, init), init);
  }

  /** `deflate(buf, "bzip2", {}, cb)` and `deflate(buf, "GZIP", {}, cb)`: no such format. */
  lemma UnknownFormat(b: seq<uint8>, cb: map<string, JsValue>, init: ZopfliOptions, compress: Engine)
    ensures Deflate([Buffer(b), JsValues.Str("bzip2"), OtherObject(map[]), Function(cb)], init, compress)
            == CallbackError(TypeError(Formats.InvalidFormatMessage))
    ensures Deflate([Buffer(b), JsValues.Str("GZIP"), OtherObject(map[]), Function(cb)], init, compress)
            == CallbackError(TypeError(Formats.InvalidFormatMessage))
  {
  }

  /** `deflate(buf, "deflate", {numiterations: "fast"}, cb)`. */
  lemma StringIterationCount(b: seq<uint8>, cb: map<string, JsValue>, init: ZopfliOptions, compress: Engine)
    ensures Deflate([Buffer(b), JsValues.Str("deflate"),
                     OtherObject(map["numiterations" := JsValues.Str("fast")]), Function(cb)], init, compress)
            == CallbackError(TypeError("Wrong type for option 'numiterations'"))
  {
    var props := map["numiterations" := JsValues.Str("fast")];
    assert GetProperty(props, Key(Verbose)) == Undefined;
    assert GetProperty(props, Key(VerboseMore)) == Undefined;
    assert GetProperty(props, Key(NumIterations)) == JsValues.Str("fast");
    assert FirstRejected(props, NumIterations);
    assert WrongTypeMessage(Key(NumIterations)) == "Wrong type for option 'numiterations'";
    OptionErrorIsFirstRejected([Buffer(b), JsValues.Str("deflate"), OtherObject(props), Function(cb)],
                               init, compress, Formats.Deflate, NumIterations);
  }

  /** `{verbose: 5}`: a number is not coerced to a boolean. */
  lemma NumberForBooleanRejected(props: map<string, JsValue>, init: ZopfliOptions, n: int32)
    requires GetProperty(props, Key(Verbose)) == Int32(n)
    ensures ParseOptions(props, init).error == Some(TypeError("Wrong type for option 'verbose'"))
  {
    ParseOptionsFirstErrorWins(props, init, Verbose);
    assert WrongTypeMessage(Key(Verbose)) == "Wrong type for option 'verbose'";
  }
}

=== FILE: formats.dfy ===
/**
  Resolution of the second argument of `deflate` to one of Zopfli's three
  output formats: an exact, case-sensitive match of the string against
  "gzip", "zlib" and "deflate".
 */
module Formats {
  import opened Wrappers
  import opened JsValues

  /** ZOPFLI_FORMAT_GZIP, ZOPFLI_FORMAT_ZLIB and ZOPFLI_FORMAT_DEFLATE. */
  datatype Format = Gzip | Zlib | Deflate

  const NotAStringMessage := "Second argument must be a string"
  const InvalidFormatMessage := "Invalid format"

  /** The token that selects a format. */
  function Token(f: Format): string {
    match f
    case Gzip => "gzip"
    case Zlib => "zlib"
    case Deflate => "deflate"
  }

  /** The second argument, resolved; a non-string (including a missing argument) is an error. */
  function ResolveFormat(v: JsValue): (r: Result<Format, TypeError>)
    ensures !v.Str? ==> r == Failure(TypeError(NotAStringMessage))
    ensures r.Success? ==> v == Str(Token(r.value))
    ensures v.Str? && (forall f :: Token(f) != v.s) ==> r == Failure(TypeError(InvalidFormatMessage))
  {
    if v.Str? then
      if v.s == "gzip" then Success(Gzip)
      else if v.s == "zlib" then Success(Zlib)
      else if v.s == "deflate" then Success(Deflate)
      else Failure(TypeError(InvalidFormatMessage))
    else
      Failure(TypeError(NotAStringMessage))
  }

  /** Every format is reachable from its token, and a token resolves to nothing else. */
  lemma ResolveTokenRoundTrip(f: Format)
    ensures ResolveFormat(Str(Token(f))) == Success(f)
  {
  }

  /** A value resolves exactly when it is one of the three tokens, as a string. */
  lemma ResolvesIffToken(v: JsValue)
    ensures ResolveFormat(v).Success? <==> exists f :: v == Str(Token(f))
  {
    if v == Str("gzip") { assert v == Str(Token(Gzip)); }
    else if v == Str("zlib") { assert v == Str(Token(Zlib)); }
    else if v == Str("deflate") { assert v == Str(Token(Deflate)); }
  }
}

=== FILE: js_values.dfy ===
/**
  The slice of the JavaScript value model that the binding observes through
  V8's type tests (IsUndefined, IsNull, IsBoolean, IsInt32, IsString,
  IsFunction, IsObject and Buffer::HasInstance).
 */
module JsValues {

  /** A 32-bit signed integer, the range of V8's IsInt32 test and of a C `int`. */
  newtype int32 = x: int | -0x8000_0000 <= x < 0x8000_0000

  /** One byte of a buffer. */
  newtype uint8 = x: int | 0 <= x < 0x100

  /**
    A JavaScript value as the binding can tell it apart. A number is `Int32`
    when V8's IsInt32 holds of it (so `5` and `5.0` alike); every other number,
    symbols and the like are `Other`. Functions and plain objects carry their
    own properties, because either can be handed in as the options object.
   */
  datatype JsValue =
    | Undefined
    | Null
    | Bool(b: bool)
    | Int32(n: int32)
    | Str(s: string)
    | Function(props: map<string, JsValue>)
    | OtherObject(props: map<string, JsValue>)
    | Buffer(bytes: seq<uint8>)
    | Other

  /** V8's IsObject: functions and buffers are objects too. */
  predicate IsObject(v: JsValue) {
    v.Function? || v.OtherObject? || v.Buffer?
  }

  /** The named properties an object exposes to `Get`; a buffer exposes none of its own. */
  function Properties(v: JsValue): map<string, JsValue>
    requires IsObject(v)
  {
    match v
    case Function(props) => props
    case OtherObject(props) => props
    case Buffer(_) => map[]
  }

  /** `object->Get(key)`: a property that is not there reads as `undefined`. */
  function GetProperty(props: map<string, JsValue>, key: string): (v: JsValue)
    ensures key !in props ==> v == Undefined
    ensures key in props ==> v == props[key]
  {
    if key in props then props[key] else Undefined
  }

  /** The only error kind the binding raises: V8's `Exception::TypeError(message)`. */
  datatype TypeError = TypeError(message: string)
}

=== FILE: options.dfy ===
/**
  `parseOptions`: turns the loosely-typed options object into a ZopfliOptions
  record. Six keys are read in a fixed order; `undefined` and `null` are
  skipped, boolean options accept only booleans, integer options accept only
  Int32 values, and the first wrongly-typed option sets the error, after
  which no later option is type-checked or applied (each is still read).
 */
module Options {
  import opened Wrappers
  import opened JsValues

  /** The six options the binding recognises. */
  datatype Field =
    | Verbose
    | VerboseMore
    | NumIterations
    | BlockSplitting
    | BlockSplittingLast
    | BlockSplittingMax

  datatype Kind = Boolean | Integer

  /** The property name the binding reads for each option. */
  function Key(f: Field): string {
    match f
    case Verbose => "verbose"
    case VerboseMore => "verbose_more"
    case NumIterations => "numiterations"
    case BlockSplitting => "blocksplitting"
    case BlockSplittingLast => "blocksplittinglast"
    case BlockSplittingMax => "blocksplittingmax"
  }

  function KindOf(f: Field): Kind {
    match f
    case NumIterations => Integer
    case BlockSplittingMax => Integer
    case _ => Boolean
  }

  /** The order in which the binding inspects the options. */
  const FieldOrder: seq<Field> :=
    [Verbose, VerboseMore, NumIterations, BlockSplitting, BlockSplittingLast, BlockSplittingMax]

  /** Position of an option in FieldOrder. */
  function Position(f: Field): nat {
    match f
    case Verbose => 0
    case VerboseMore => 1
    case NumIterations => 2
    case BlockSplitting => 3
    case BlockSplittingLast => 4
    case BlockSplittingMax => 5
  }

  /** Zopfli's option record; every field is a C `int`. */
  datatype ZopfliOptions = ZopfliOptions(
    verbose: int32,
    verboseMore: int32,
    numIterations: int32,
    blockSplitting: int32,
    blockSplittingLast: int32,
    blockSplittingMax: int32)

  function Get(o: ZopfliOptions, f: Field): int32 {
    match f
    case Verbose => o.verbose
    case VerboseMore => o.verboseMore
    case NumIterations => o.numIterations
    case BlockSplitting => o.blockSplitting
    case BlockSplittingLast => o.blockSplittingLast
    case BlockSplittingMax => o.blockSplittingMax
  }

  /** Assigns one field and leaves the other five alone. */
  function Set(o: ZopfliOptions, f: Field, x: int32): (r: ZopfliOptions)
    ensures Get(r, f) == x
    ensures forall g :: g != f ==> Get(r, g) == Get(o, g)
  {
    match f
    case Verbose => o.(verbose := x)
    case VerboseMore => o.(verboseMore := x)
    case NumIterations => o.(numIterations := x)
    case BlockSplitting => o.(blockSplitting := x)
    case BlockSplittingLast => o.(blockSplittingLast := x)
    case BlockSplittingMax => o.(blockSplittingMax := x)
  }

  /** Two option records that agree on every field are the same record. */
  lemma Extensionality(a: ZopfliOptions, b: ZopfliOptions)
    requires forall f :: Get(a, f) == Get(b, f)
    ensures a == b
  {
    assert Get(a, Verbose) == Get(b, Verbose);
    assert Get(a, VerboseMore) == Get(b, VerboseMore);
    assert Get(a, NumIterations) == Get(b, NumIterations);
    assert Get(a, BlockSplitting) == Get(b, BlockSplitting);
    assert Get(a, BlockSplittingLast) == Get(b, BlockSplittingLast);
    assert Get(a, BlockSplittingMax) == Get(b, BlockSplittingMax);
  }

  /** What one option's value does to the record. */
  datatype Read = Skip | Store(value: int32) | Reject

  /**
    The rule for a single option: `undefined` and `null` are skipped; a boolean
    option stores a boolean as 1 or 0; an integer option stores an Int32 as is;
    anything else is rejected, with no coercion.
   */
  function Classify(f: Field, v: JsValue): (r: Read)
    ensures r.Skip? <==> v.Undefined? || v.Null?
    ensures r.Store? <==> (KindOf(f) == Boolean && v.Bool?) || (KindOf(f) == Integer && v.Int32?)
    ensures r.Store? && v.Bool? ==> r.value == (if v.b then 1 else 0)
    ensures r.Store? && v.Int32? ==> r.value == v.n
  {
    if v.Undefined? || v.Null? then Skip
    else
      match KindOf(f)
      case Boolean => if v.Bool? then Store(if v.b then 1 else 0) else Reject
      case Integer => if v.Int32? then Store(v.n) else Reject
  }

  function WrongTypeMessage(key: string): string {
    "Wrong type for option '" + key + "'"
  }

  function WrongType(f: Field): TypeError {
    TypeError(WrongTypeMessage(Key(f)))
  }

  /** The record being filled in and the error slot (None stands for JS `null`). */
  datatype ParseState = ParseState(options: ZopfliOptions, error: Option<TypeError>)

  /**
    One guarded block of `parseOptions`: while no error is set, an accepted
    value is applied to its field alone and a wrongly-typed one sets the
    error; once an error is set, nothing changes.
   */
  function ParseField(st: ParseState, props: map<string, JsValue>, f: Field): (r: ParseState)
    ensures st.error.Some? ==> r == st
    ensures st.error.None? && !Rejected(props, f) ==>
              && r.error.None?
              && Get(r.options, f) == Stored(props, f, st.options)
              && (forall g :: g != f ==> Get(r.options, g) == Get(st.options, g))
    ensures st.error.None? && Rejected(props, f) ==> r == st.(error := Some(WrongType(f)))
  {
    if st.error.Some? then st
    else
      match Classify(f, GetProperty(props, Key(f)))
      case Skip => st
      case Store(x) => st.(options := Set(st.options, f, x))
      case Reject => st.(error := Some(WrongType(f)))
  }

  /** The guarded blocks for `fields`, one after the other. */
  function ParseFields(props: map<string, JsValue>, fields: seq<Field>, st: ParseState): ParseState
    decreases |fields|
  {
    if |fields| == 0 then st
    else ParseFields(props, fields[1..], ParseField(st, props, fields[0]))
  }

  /** `parseOptions(options, zopfli_options)`, starting from whatever `init` holds. */
  function ParseOptions(props: map<string, JsValue>, init: ZopfliOptions): ParseState {
    ParseFields(props, FieldOrder, ParseState(init, None))
  }

  // ---------------------------------------------------------------------------
  // Reference definitions: what the result should be, stated without the fold.

  /** The option is present with a value of the wrong type. */
  predicate Rejected(props: map<string, JsValue>, f: Field) {
    Classify(f, GetProperty(props, Key(f))).Reject?
  }

  /** No recognised option has a wrongly-typed value. */
  predicate WellTyped(props: map<string, JsValue>) {
    forall f :: !Rejected(props, f)
  }

  /** `f` is rejected and every option declared before it is not. */
  predicate FirstRejected(props: map<string, JsValue>, f: Field) {
    Rejected(props, f) && forall g :: Position(g) < Position(f) ==> !Rejected(props, g)
  }

  /** The value a field holds once its option has been applied. */
  function Stored(props: map<string, JsValue>, f: Field, init: ZopfliOptions): int32 {
    match Classify(f, GetProperty(props, Key(f)))
    case Store(x) => x
    case _ => Get(init, f)
  }

  /** The record a successful parse yields: every field at its stored value. */
  function Applied(props: map<string, JsValue>, init: ZopfliOptions): (o: ZopfliOptions)
    ensures forall f :: Get(o, f) == Stored(props, f, init)
  {
    ZopfliOptions(
      Stored(props, Verbose, init),
      Stored(props, VerboseMore, init),
      Stored(props, NumIterations, init),
      Stored(props, BlockSplitting, init),
      Stored(props, BlockSplittingLast, init),
      Stored(props, BlockSplittingMax, init))
  }

  // ---------------------------------------------------------------------------
  // The fold against the reference definitions.

  lemma {:induction false} ParseFieldsKeepsError(props: map<string, JsValue>, fields: seq<Field>, st: ParseState)
    requires st.error.Some?
    ensures ParseFields(props, fields, st) == st
    decreases |fields|
  {
    if |fields| > 0 {
      ParseFieldsKeepsError(props, fields[1..], ParseField(st, props, fields[0]));
    }
  }

  lemma {:induction false} ParseFieldsAccepts(props: map<string, JsValue>, fields: seq<Field>, st: ParseState)
    requires st.error.None?
    requires forall i :: 0 <= i < |fields| ==> !Rejected(props, fields[i])
    ensures ParseFields(props, fields, st).error.None?
    ensures forall g :: Get(ParseFields(props, fields, st).options, g)
                        == if g in fields then Stored(props, g, st.options) else Get(st.options, g)
    decreases |fields|
  {
    if |fields| > 0 {
      var st' := ParseField(st, props, fields[0]);
      ParseFieldsAccepts(props, fields[1..], st');
      forall g
        ensures Get(ParseFields(props, fields, st).options, g)
                == if g in fields then Stored(props, g, st.options) else Get(st.options, g)
      {
        assert g in fields <==> g == fields[0] || g in fields[1..];
      }
    }
  }

  lemma {:induction false} ParseFieldsRejectsAt(props: map<string, JsValue>, fields: seq<Field>, st: ParseState, k: nat)
    requires st.error.None?
    requires k < |fields| && Rejected(props, fields[k])
    requires forall i :: 0 <= i < k ==> !Rejected(props, fields[i])
    ensures ParseFields(props, fields, st).error == Some(WrongType(fields[k]))
    ensures forall g :: Get(ParseFields(props, fields, st).options, g)
                        == if g in fields[..k] then Stored(props, g, st.options) else Get(st.options, g)
    decreases |fields|
  {
    var st' := ParseField(st, props, fields[0]);
    var rest := fields[1..];
    assert ParseFields(props, fields, st) == ParseFields(props, rest, st');
    if k == 0 {
      ParseFieldsKeepsError(props, rest, st');
    } else {
      assert rest[k - 1] == fields[k];
      assert !Rejected(props, fields[0]);
      forall i | 0 <= i < k - 1
        ensures !Rejected(props, rest[i])
      {
        assert rest[i] == fields[i + 1];
      }
      ParseFieldsRejectsAt(props, rest, st', k - 1);
      var r := ParseFields(props, rest, st');
      forall g
        ensures Get(r.options, g) == if g in fields[..k] then Stored(props, g, st.options) else Get(st.options, g)
      {
        assert rest[..k - 1] == fields[1..k];
        assert g in fields[..k] <==> g == fields[0] || g in fields[1..k];
        if g != fields[0] {
          assert Get(st'.options, g) == Get(st.options, g);
        }
      }
    }
  }

  lemma FieldOrderIndexes()
    ensures |FieldOrder| == 6
    ensures forall f :: FieldOrder[Position(f)] == f
    ensures forall i :: 0 <= i < |FieldOrder| ==> Position(FieldOrder[i]) == i
    ensures forall f :: f in FieldOrder
  {
    forall f
      ensures f in FieldOrder
    {
      assert FieldOrder[Position(f)] == f;
    }
  }

  // ---------------------------------------------------------------------------
  // Properties of parseOptions.

  /** The error slot is null exactly when every present recognised option is well typed. */
  lemma ParseOptionsNullIffWellTyped(props: map<string, JsValue>, init: ZopfliOptions)
    ensures ParseOptions(props, init).error.None? <==> WellTyped(props)
  {
    FieldOrderIndexes();
    if WellTyped(props) {
      ParseFieldsAccepts(props, FieldOrder, ParseState(init, None));
    } else {
      var f := FirstRejectedExists(props);
      ParseOptionsFirstErrorWins(props, init, f);
    }
  }

  /** A badly typed object always has a first rejected option in declaration order. */
  lemma FirstRejectedExists(props: map<string, JsValue>) returns (f: Field)
    requires !WellTyped(props)
    ensures FirstRejected(props, f)
  {
    if Rejected(props, Verbose) { f := Verbose; }
    else if Rejected(props, VerboseMore) { f := VerboseMore; }
    else if Rejected(props, NumIterations) { f := NumIterations; }
    else if Rejected(props, BlockSplitting) { f := BlockSplitting; }
    else if Rejected(props, BlockSplittingLast) { f := BlockSplittingLast; }
    else { f := BlockSplittingMax; }
  }

  /** On success every field holds its option's value, or its initial value if the option is absent. */
  lemma ParseOptionsStoresEveryField(props: map<string, JsValue>, init: ZopfliOptions)
    requires WellTyped(props)
    ensures ParseOptions(props, init).error.None?
    ensures ParseOptions(props, init).options == Applied(props, init)
  {
    FieldOrderIndexes();
    ParseFieldsAccepts(props, FieldOrder, ParseState(init, None));
    Extensionality(ParseOptions(props, init).options, Applied(props, init));
  }

  /**
    The error names the first wrongly-typed option; the options declared
    before it have been applied and it and every later one keep their
    initial values.
   */
  lemma ParseOptionsFirstErrorWins(props: map<string, JsValue>, init: ZopfliOptions, f: Field)
    requires FirstRejected(props, f)
    ensures ParseOptions(props, init).error == Some(WrongType(f))
    ensures forall g :: Get(ParseOptions(props, init).options, g)
                        == if Position(g) < Position(f) then Stored(props, g, init) else Get(init, g)
  {
    FieldOrderIndexes();
    var k := Position(f);
    forall i | 0 <= i < k
      ensures !Rejected(props, FieldOrder[i])
    {
      assert Position(FieldOrder[i]) == i;
    }
    ParseFieldsRejectsAt(props, FieldOrder, ParseState(init, None), k);
    forall g
      ensures g in FieldOrder[..k] <==> Position(g) < k
    {
      if Position(g) < k {
        assert FieldOrder[..k][Position(g)] == g;
      }
    }
  }

  /** Whatever error is reported names the first wrongly-typed option. */
  lemma ParseOptionsErrorIsFirst(props: map<string, JsValue>, init: ZopfliOptions)
    requires ParseOptions(props, init).error.Some?
    ensures exists f :: FirstRejected(props, f) && ParseOptions(props, init).error == Some(WrongType(f))
  {
    ParseOptionsNullIffWellTyped(props, init);
    var f := FirstRejectedExists(props);
    ParseOptionsFirstErrorWins(props, init, f);
  }

  /** An option that is `undefined` or `null` leaves its field alone and is never the one reported. */
  lemma AbsentOptionUnchanged(props: map<string, JsValue>, init: ZopfliOptions, f: Field)
    requires GetProperty(props, Key(f)).Undefined? || GetProperty(props, Key(f)).Null?
    ensures Get(ParseOptions(props, init).options, f) == Get(init, f)
    ensures ParseOptions(props, init).error != Some(WrongType(f))
  {
    if WellTyped(props) {
      ParseOptionsStoresEveryField(props, init);
    } else {
      var g := FirstRejectedExists(props);
      ParseOptionsFirstErrorWins(props, init, g);
      WrongTypeNamesOneOption(f, g);
    }
  }

  /** Each option has its own message, so the message identifies the option. */
  lemma WrongTypeNamesOneOption(f: Field, g: Field)
    ensures WrongType(f) == WrongType(g) <==> f == g
  {
    if f != g {
      assert |WrongTypeMessage(Key(f))| != |WrongTypeMessage(Key(g))|;
    }
  }

  /**
    Once an option is rejected nothing after it is inspected: changing the
    values of the later options does not change the result.
   */
  lemma LaterOptionsNotInspected(p1: map<string, JsValue>, p2: map<string, JsValue>, init: ZopfliOptions, f: Field)
    requires FirstRejected(p1, f)
    requires forall g :: Position(g) <= Position(f) ==> GetProperty(p1, Key(g)) == GetProperty(p2, Key(g))
    ensures ParseOptions(p1, init) == ParseOptions(p2, init)
  {
    assert FirstRejected(p2, f);
    ParseOptionsFirstErrorWins(p1, init, f);
    ParseOptionsFirstErrorWins(p2, init, f);
    Extensionality(ParseOptions(p1, init).options, ParseOptions(p2, init).options);
  }

  /** Keys other than the six recognised ones are ignored. */
  lemma UnrecognizedKeysIgnored(props: map<string, JsValue>, init: ZopfliOptions, key: string, v: JsValue)
    requires forall f :: Key(f) != key
    ensures ParseOptions(props[key := v], init) == ParseOptions(props, init)
  {
    var props' := props[key := v];
    forall f
      ensures GetProperty(props', Key(f)) == GetProperty(props, Key(f))
      ensures Rejected(props', f) == Rejected(props, f)
      ensures Stored(props', f, init) == Stored(props, f, init)
    {
    }
    if WellTyped(props) {
      ParseOptionsStoresEveryField(props, init);
      ParseOptionsStoresEveryField(props', init);
      Extensionality(ParseOptions(props', init).options, ParseOptions(props, init).options);
    } else {
      var f := FirstRejectedExists(props);
      LaterOptionsNotInspected(props, props', init, f);
    }
  }
}

=== FILE: wrappers.dfy ===
/** Option and Result, used throughout the model. */
module Wrappers {

  /** An optional value: the binding's "error slot" is an Option of an error. */
  datatype Option<+T> = None | Some(value: T)

  /** Either a value or the error that stopped the computation. */
  datatype Result<+R, +E> = Success(value: R) | Failure(error: E)
}
